=== FILE: README.md ===
# Anonymous credit tokens demo: framing, spend processing and client sessions

This project models the deterministic logic of the anonymous-credit-token
demo: an issuer worker that blind-issues credits and processes spends, a
browser client and an MCP agent, each of which talks to the issuer over
HTTP.
The cryptography (issuance, spend proofs, refunds) and the CBOR encoding
belong to an external library. Here they are opaque function values that
return `Option`/`Result`, and every protocol object is represented by its
CBOR bytes.

Three pieces are modelled:

- **Issuance framing** (`framing.dfy`). The request body is one amount byte
  followed by the serialized IssuanceRequest. Both clients build it this way
  and the issuer splits it at offset 1.
- **The issuer** (`issuer.dfy`, `nullifier_store.dfy`). `serve_request`
  issues the leading byte as the amount. `serve_spend` parses the proof,
  checks the nullifier, marks it, loads the key and then refunds. The
  nullifier store has two versions: the intended set (`Tracking`) and the
  shipped stub (`Stub`), which remembers nothing and is built fresh for
  every request.
- **Client sessions** (`web_client.dfy`, `agent.dfy`). The browser keeps a
  module-level `MyState` record (three fields: balance, key, token), which
  the page's three handlers, request, spend and restart, update. The
  agent's fetcher has two tools: issue 3 credits and redeem 1. Each handler
  is a pure function from the state and its inputs (entered amount, HTTP
  replies, library results) to a `Step`. A `Step` holds the new state, what
  the handler reports, and the HTTP requests it sent, in order.

`end_to_end.dfy` connects the clients to the issuer. It shows that the amount
a client records is the amount the issuer signed. It also shows what each
client does with a double-spend answer.

## Model

| member | source | states |
|---|---|---|
| Framing.Encode | client/src/App.tsx:129-131 | the body is one byte longer than the request, starts with the amount, and the rest is the request unchanged |
| Framing.Decode | issuer/src/lib.rs:77-79 | decoding fails exactly on an empty body (the `bytes[0]` panic); otherwise re-encoding the decoded pair gives back the original body |
| Framing.DecodeEncode | issuer/src/lib.rs:78-79 | splitting `[a] ++ r` at offset 1 yields `(a, r)` for every amount byte and request |
| Framing.EncodeInjective | act-mcp-server/src/act.rs:141-144 | different (amount, request) pairs never produce the same body |
| NullifierStore.IsUsed | issuer/src/lib.rs:24-26 | the intended store reports a nullifier as used exactly when it is in its set; the shipped stub reports every nullifier as unused |
| NullifierStore.MarkUsed | issuer/src/lib.rs:21-28 | after marking, a tracking store reports the nullifier as used and every other nullifier as before; the stub reports nothing as used and stays the stub |
| NullifierStore.MarkUsedMonotone | issuer/src/lib.rs:27 | marking never un-records a nullifier that was already used |
| NullifierStore.StubForgets | issuer/src/lib.rs:24-27 | the stub reports no nullifier as used, even right after it was marked |
| Issuer.GetParams | issuer/src/lib.rs:54-56 | the issuer's context is ("example-org", "payment-api", "production", "2024-01-15") |
| Issuer.RefundReply | issuer/src/lib.rs:109-115 | an Ok refund is the only result answered as a refund, with the encoded refund as body; an Err is a 400 whose text starts with "err: not enough credits available to spend: " and differs from the double-spend answer |
| Issuer.ServePublicKey | issuer/src/lib.rs:70-74 | fails only when the private key is unavailable; otherwise answers with the public half of that key |
| Issuer.ServeRequest | issuer/src/lib.rs:76-91 | an empty body aborts; a 200 answer is given exactly when the request after byte 0 parses, the key loads and `issue` succeeds with amount `body[0]`; it carries that issuance response |
| Issuer.IssuesLeadingByte | issuer/src/lib.rs:78-87 | every amount byte, including 0 and 255, reaches `issue` unchanged, so no policy bound is applied |
| Issuer.ServeSpend | issuer/src/lib.rs:93-116 | an unparsable proof aborts and leaves the store alone; a used nullifier gets 400 "Double-spending attempt detected" and leaves the store unchanged; a fresh one is marked before the key load and refund are attempted, and refund Ok/Err maps to 200 with the refund or 400 with the "not enough credits" text |
| Issuer.DoubleSpendExactly | issuer/src/lib.rs:99-105 | the double-spend answer is given if and only if the proof parses and its nullifier is already recorded |
| Issuer.DoubleSpendIgnoresRefund | issuer/src/lib.rs:100-109 | once the nullifier is recorded, the answer is the same whatever the key and refund would do, so refund is never invoked |
| Issuer.MarkedWhateverRefundDoes | issuer/src/lib.rs:106-115 | with the intended store, a parsed proof's nullifier is recorded afterwards whether the refund succeeds, fails or the key is missing, and no other nullifier is added |
| Issuer.ReplayRejected | issuer/src/lib.rs:97-106 | with the intended store, resubmitting the same proof bytes is answered as a double spend whatever the first attempt returned |
| Issuer.StubNeverRejects | issuer/src/lib.rs:98-105 | with the shipped stub the double-spend branch is never taken and the store stays the stub |
| Issuer.ShippedServeSpend | issuer/src/lib.rs:93-116 | the shipped handler (fresh stub per request) never answers double spend, and with a parsable proof and a key it answers exactly what refund says |
| Issuer.ServeAll | issuer/src/lib.rs:93-116 | serving a sequence of spends gives one outcome per request, and the intended store only grows |
| Issuer.RefundAtMostOnce | issuer/src/lib.rs:99-110 | with the intended store and any sequence of requests, a refunded proof's nullifier was absent before and present after, and no two refunded requests share a nullifier |
| Issuer.ResubmittedProofRefundedOnce | issuer/src/lib.rs:99-110 | the same fresh proof sent twice in a row to the intended store: the first is refunded, the second is a double spend |
| Issuer.ShippedRefundsEveryReplay | issuer/src/lib.rs:97-110 | with the shipped stub, every replay of a refundable proof is answered with a refund again |
| WebClient.Initial | client/src/App.tsx:16-24 | a new session: balance 0, no public key, no credit token |
| WebClient.ValidateInput | client/src/App.tsx:50-53 | accepts exactly an integer entry n with 0 < n < 256; blank, fractional and non-numeric entries are refused |
| WebClient.AcceptedAmountFitsFrame | client/src/App.tsx:50-53 | every amount `validateInput` accepts (an integer with 0 < n < 256) survives the one-byte framing, so the issuer reads back exactly n and the request |
| WebClient.FramedAmount | client/src/App.tsx:129-131 | for every number n the page could frame, the issuer reads back n mod 256 and the request unchanged, and reads back n itself exactly when 0 <= n < 256 |
| WebClient.RequestCredits | client/src/App.tsx:88-169 | invalid amount or URL: refused, no change and nothing sent; an accepted URL that does not resolve: failure with nothing sent; a non-200 key fetch: refused after the fetch, no change; a 200 key fetch stores the key and posts `[n] ++ issuance_request`; a token is received exactly when the key fetch and the request both return 200 and finalize succeeds, and then credits are overwritten with n and the token replaced; a 400 answer is reported as rejected, any other non-200 status as unanswered with that status, a network error as failure; otherwise credits and token are unchanged; the public key changes only on a 200 key fetch |
| WebClient.BlankUrlReachesNoIssuer | client/src/App.tsx:100-112 | a blank URL field passes validation through the default issuer, yet the request fails with nothing sent and no change, because `url` (line 48) resolves against the blank field |
| WebClient.RequestCreditsSends | client/src/App.tsx:128-132 | after validation the handler fetches the key and then posts `[n] ++ issuance_request` to the request route |
| WebClient.IssueOverwrites | client/src/App.tsx:134-139 | two successful issuances leave the second amount as the balance, not the sum |
| WebClient.SpendCredits | client/src/App.tsx:171-235 | invalid amount, no token or no key: refused, nothing sent and no change; asking for more than the balance is flagged; a failing `spend_tokens` or an unresolvable URL fails with nothing sent; otherwise exactly the spend proof is posted; the spend completes if and only if the answer is 200 and `update_refund` accepts it, and then credits drop by exactly n and the token is the refreshed one; a 400 is reported with the server's text and a top-up hint exactly when the balance is 0; any other status is reported with that status; every outcome but a completed spend leaves the state unchanged |
| WebClient.OverspendStillSent | client/src/App.tsx:194-202 | a spend above the balance is warned about, its proof is still posted, and a 200 answer makes the recorded balance negative |
| WebClient.Restart | client/src/App.tsx:64-66 | whatever the session held, restart replaces it with a new one: balance 0, no key, no token |
| WebClient.RestartForgetsSession | client/src/App.tsx:64-66 | after restart the balance is 0 and a spend is refused for lack of a token |
| Agent.GetParams | act-mcp-server/src/act.rs:24-26 | the agent's context is ("example-org", "payment-api", "production", "2024-01-15") |
| Agent.New | act-mcp-server/src/act.rs:113-121 | a new fetcher: balance 0, empty login and empty key |
| Agent.ActIssue | act-mcp-server/src/act.rs:127-166 | posts `[3] ++ issuance_request`; succeeds exactly when both replies arrive (any status) and finalize succeeds, and then sets credits to 3, login to the finalized token and the key to the fetched body; any panic leaves the fetcher unchanged |
| Agent.ActRedeem | act-mcp-server/src/act.rs:168-196 | always proves a charge of 1 against the current login and posts that proof; it completes if and only if `spend_tokens` succeeds, a reply arrives (any status) and `update_refund` accepts its body; on completion credits drop by exactly 1, login becomes the refunded token and the key is kept; if any step panics, the fetcher is unchanged |
| Agent.RedeemIgnoresBalance | act-mcp-server/src/act.rs:169-174 | the balance never gates a redeem: fetchers differing only in credits send the same request and succeed alike |
| Agent.RedeemTimesCounts | act-mcp-server/src/act.rs:186-190 | after up to k redeems the balance is the start minus the number that completed, and the key is untouched |
| Agent.FreshFetcherLifecycle | act-mcp-server/src/act.rs:113-121 | from a new fetcher, a completed issue shows 3 credits and the fetched key, and three completed redeems bring the count to 0 |
| EndToEnd.ParamsAgree | issuer/src/lib.rs:54-56 | the issuer and the agent (act.rs:24-26) build identical Params ("example-org", "payment-api", "production", "2024-01-15") |
| EndToEnd.WebIssuanceAgreesOnAmount | client/src/App.tsx:128-139 | against the issuer, the page receives a token if and only if the issuer signs exactly the validated amount over its request, and then it records that amount and the finalized token |
| EndToEnd.AgentIssuanceSignsThree | act-mcp-server/src/act.rs:139-161 | against the issuer, a completed `act_issue` records 3 credits; if in addition the issuer could issue (key present, request parses, `issue` succeeds), the stored login is the token finalized from an issuance of exactly 3 credits |
| EndToEnd.AgentFinalizesFailedIssuance | act-mcp-server/src/act.rs:139-161 | when the issuer cannot load its key the request handler fails, yet `act_issue` completes, with 3 credits, exactly when `finalize_credits` accepts the failed reply's body, since the agent reads no status |
| EndToEnd.WebDoubleSpendKeepsState | client/src/App.tsx:218-229 | a proof whose nullifier the intended store holds comes back as 400 with the double-spend text, and the page keeps its state |
| EndToEnd.WebSpendConsumesFreshNullifier | client/src/App.tsx:203-209 | against the intended store, a completed web spend implies a fresh nullifier and an Ok refund, and the balance fell by the amount |
| EndToEnd.AgentIgnoresDoubleSpendStatus | act-mcp-server/src/act.rs:177-190 | the agent hands the issuer's 400 double-spend text to `update_refund` as if it were a refund; it redeems exactly when the library accepts that text |

## Design versus code

The model follows the code wherever the two disagree:

- Requirement: the issuer enforces a maximum amount before issuing. Code:
  no bound is applied, and any leading byte, including 0, is issued
  (`Issuer.IssuesLeadingByte`).
- Requirement: an unparsable proof fails with a serialization error. Code:
  it panics in `unwrap`. The model reports this as `Aborted`, and no
  nullifier is consumed.
- Requirement: the nullifier store does an atomic check-and-insert and is
  durable. Code: a stub, with double-spend detection still to be written.
  Both are modelled: `Tracking` is the intended store and `Stub` is the
  shipped one.
- Requirement: a second concurrent spend on one token is rejected. Neither
  client enforces this. The browser disables its Restart, Request and Spend
  buttons while `isLoading` is set (client/src/App.tsx:302, 360, 399), and
  the agent serialises through a lock; neither checks anything about the
  token.
- The request handler validates `issuerUrl.trim() || DEFAULT_ISSUER`
  (client/src/App.tsx:103), but `url` resolves routes against the raw
  `issuerUrl` (client/src/App.tsx:48). A blank field therefore passes
  validation and then fails before any request is sent
  (`WebClient.BlankUrlReachesNoIssuer`): the fallback to `DEFAULT_ISSUER` at
  line 103 never takes effect. The default issuer is still reached through
  the field's initial value and the value a restart puts back
  (client/src/App.tsx:30, 70).
  The spend handler validates no URL at all.

## Left out

- The anonymous-credit-token library calls and CBOR `to_cbor`/`from_cbor`. They are opaque parameters (`ClientCrypto`, `Issuer.IssuerCrypto`). Properties that depend on the cryptography, such as a token's real balance, a fourth spend failing after three, or nullifier uniqueness across tokens, are not modelled.
- Randomness (`OsRng`, `PreIssuance::random`). On the client side the `PreReq` value and the `spendTokens` function stand in for it. On the issuer side `issue` and `refund` (issuer/src/lib.rs:87, 109) are modelled as functions of their other inputs, so the model treats two calls on the same inputs as giving the same bytes; no stated property depends on that.
- Issuer.ShippedRefundsEveryReplay: promises that each replay is answered with a refund, not that the refund bytes repeat, because `refund` draws fresh randomness on every call.
- client/rust/src/lib.rs is not part of this model. It passes calls straight through to the library, and `ClientCrypto` stands in for it.
- issuer/keygen/src/main.rs (key generation, hex encoding, file I/O) is not part of this model.
- Worker routing, CORS headers and secret retrieval. The private key is an `Option` parameter whose `None` is a failed secret lookup. `EndToEnd.ToReply` assumes a failed handler reaches the client as status 500 with an empty body. In the worker such a reply skips `wrap` (issuer/src/lib.rs:41-51), so it carries no CORS header and a cross-origin browser `fetch` would reject it (`NetworkError` here); it may also carry error text. The web client completes on neither a non-200 status nor a network error, so `EndToEnd.WebIssuanceAgreesOnAmount` holds under either choice. The agent reads no status and does complete on such a reply whenever `finalize_credits` or `update_refund` accepts its body (`EndToEnd.AgentFinalizesFailedIssuance`). In the real worker that body is the runtime's error text, not the empty body assumed here. `EndToEnd.AgentIssuanceSignsThree` ties the login to an issuance only when the issuer actually issued, so it holds under either choice too.
- `validateUrl` and `new URL` depend on the platform URL parser, so the URL field is a pair of booleans (`WebClient.UrlField`): whether validation accepts it and whether routes resolve against it.
- JavaScript number parsing. The amount field is `Blank`, `Integer(n)` or `NotInteger`. Texts on which `Number` and `parseInt` disagree (such as "1e2") are not modelled.
- WebClient.SpendCredits: reports a `SpendFailed` outcome but does not model what follows it. In the source `handleSpendCredits` has no `try`, so the exception skips `setIsLoading(false)` (client/src/App.tsx:234) and the page stays disabled until it is reloaded.
- EndToEnd.AgentIssuanceSignsThree: the login is tied to an issuance of 3 credits only when the issuer could issue. When the issuer fails, the agent still hands the error body to `finalize_credits`, and only the library, which is opaque here, can reject it.
- React rendering, `isLoading` and the wording of the UI messages. The handler outcomes keep only which message was shown. The web spend handler compares against React's `currentCredits`, which the model takes to be `myState.credits`: every change of one sets the other.
- The MCP prompt, resource and initialize handlers, and the text of tool results.
- The `tokio::sync::Mutex` locks of the agent, and all concurrency. Interleavings are modelled only as sequences of requests (`Issuer.ServeAll`).
- Agent.ActRedeem: does not model the `i32` wrap-around or overflow panic of the credit counter, which would need 2^31 completed redeems without an issue.
- Pruning nullifiers by batch date, and a durable store: the code has neither.

=== FILE: agent.dfy ===
/** The MCP agent's credential session: a fetcher holding a balance, a
    login token and the issuer's key, and its two tools, one that obtains
    3 credits and one that spends 1. */
module Agent {
  import opened Wrappers
  import opened Protocol
  import Framing

  /** `get_params` of the agent; the issuer builds the same value. */
  function GetParams(): Params
  {
    Params("example-org", "payment-api", "production", "2024-01-15")
  }

  /** The fetcher's three shared slots. */
  datatype Fetcher = Fetcher(credits: int, login: Bytes, publicKey: Bytes)

  /** `ACTFetcher::new`. */
  function New(): Fetcher
  {
    Fetcher(0, [], [])
  }

  /** The amount `act_issue` always asks for, and the charge of `act_redeem`. */
  const IssueAmount: byte := 3
  const RedeemCharge: byte := 1

  /** What a tool call reports; `Panicked` is an `unwrap` that failed, which
      ends the call before any slot is written. */
  datatype ToolResult = IssueSucceeded | Redeemed(balance: int) | Panicked

  /** `act_issue`. Reply statuses are never looked at: whatever body comes
      back is used as the key and as the issuance response. All three slots
      are written together at the end, the balance overwritten with 3. */
  function ActIssue(f: Fetcher, publicReply: HttpReply, preReq: PreReq,
                    post: Bytes -> HttpReply, crypto: ClientCrypto): (r: Step<Fetcher, ToolResult>)
    ensures r.outcome != Panicked ==>
      (r.sent == [Get(PublicPath), Post(RequestPath, Framing.Encode(IssueAmount, preReq.issuanceRequest))])
    ensures r.outcome == IssueSucceeded <==>
      && publicReply.Reply?
      && post(Framing.Encode(IssueAmount, preReq.issuanceRequest)).Reply?
      && crypto.finalizeCredits(publicReply.body, preReq,
                                post(Framing.Encode(IssueAmount, preReq.issuanceRequest)).body).Some?
    ensures r.outcome == IssueSucceeded ==>
      && r.state.credits == 3
      && r.state.publicKey == publicReply.body
      && Some(r.state.login) == crypto.finalizeCredits(publicReply.body, preReq,
                                                       post(Framing.Encode(IssueAmount, preReq.issuanceRequest)).body)
    ensures r.outcome != IssueSucceeded ==> r.outcome == Panicked && r.state == f
  {
    match publicReply
    case NetworkError => Step(f, Panicked, [Get(PublicPath)])
    case Reply(_, publicKey) =>
      var body := Framing.Encode(IssueAmount, preReq.issuanceRequest);
      var sent := [Get(PublicPath), Post(RequestPath, body)];
      match post(body)
      case NetworkError => Step(f, Panicked, sent)
      case Reply(_, response) =>
        match crypto.finalizeCredits(publicKey, preReq, response)
        case None => Step(f, Panicked, sent)
        case Some(login) => Step(Fetcher(3, login, publicKey), IssueSucceeded, sent)
  }

  /** `act_redeem`. The charge is 1 whatever the balance, even 0 or below;
      the balance drops by 1 and the login is replaced only once
      `update_refund` has produced the new token. */
  function ActRedeem(f: Fetcher, post: Bytes -> HttpReply, crypto: ClientCrypto): (r: Step<Fetcher, ToolResult>)
    ensures crypto.spendTokens(RedeemCharge, f.login).Some? ==>
      r.sent == [Post(SpendPath, crypto.spendTokens(RedeemCharge, f.login).value.spendProof)]
    ensures crypto.spendTokens(RedeemCharge, f.login).None? ==> r.sent == [] && r == Step(f, Panicked, [])
    ensures r.outcome.Redeemed? <==>
      && crypto.spendTokens(RedeemCharge, f.login).Some?
      && var pre := crypto.spendTokens(RedeemCharge, f.login).value;
         && post(pre.spendProof).Reply?
         && crypto.updateRefund(pre, post(pre.spendProof).body, f.publicKey).Some?
    ensures r.outcome.Redeemed? ==>
      && r.state == Fetcher(f.credits - 1, r.state.login, f.publicKey)
      && r.outcome.balance == f.credits - 1
      && post(r.sent[0].body).Reply?
      && Some(r.state.login) == crypto.updateRefund(crypto.spendTokens(RedeemCharge, f.login).value,
                                                    post(r.sent[0].body).body, f.publicKey)
    ensures !r.outcome.Redeemed? ==> r.outcome == Panicked && r.state == f
  {
    match crypto.spendTokens(RedeemCharge, f.login)
    case None => Step(f, Panicked, [])
    case Some(preSpend) =>
      var sent := [Post(SpendPath, preSpend.spendProof)];
      match post(preSpend.spendProof)
      case NetworkError => Step(f, Panicked, sent)
      case Reply(_, refund) =>
        match crypto.updateRefund(preSpend, refund, f.publicKey)
        case None => Step(f, Panicked, sent)
        case Some(login) => Step(Fetcher(f.credits - 1, login, f.publicKey), Redeemed(f.credits - 1), sent)
  }

  /** The balance never gates a redeem: two fetchers that differ only in
      their balance send the same request and succeed or fail alike. */
  lemma RedeemIgnoresBalance(f: Fetcher, credits: int, post: Bytes -> HttpReply, crypto: ClientCrypto)
    ensures ActRedeem(f.(credits := credits), post, crypto).sent == ActRedeem(f, post, crypto).sent
    ensures ActRedeem(f.(credits := credits), post, crypto).outcome.Redeemed? ==
            ActRedeem(f, post, crypto).outcome.Redeemed?
  {
  }

  /** Where a run of redeems ends, and how many of them completed. */
  datatype Run = Run(fetcher: Fetcher, completed: nat)

  /** Calls `act_redeem` up to `k` times, stopping at the first panic. */
  function RedeemTimes(f: Fetcher, k: nat, post: Bytes -> HttpReply, crypto: ClientCrypto): (run: Run)
    decreases k
  {
    if k == 0 then Run(f, 0)
    else
      var r := ActRedeem(f, post, crypto);
      if r.outcome.Redeemed? then
        var rest := RedeemTimes(r.state, k - 1, post, crypto);
        Run(rest.fetcher, rest.completed + 1)
      else Run(f, 0)
  }

  /** Whatever the tokens, after up to `k` redeems the balance is the
      starting balance minus the number that completed, at most `k`, and the
      stored key is untouched. */
  lemma {:induction false} RedeemTimesCounts(f: Fetcher, k: nat, post: Bytes -> HttpReply, crypto: ClientCrypto)
    ensures RedeemTimes(f, k, post, crypto).completed <= k
    ensures RedeemTimes(f, k, post, crypto).fetcher.credits == f.credits - RedeemTimes(f, k, post, crypto).completed
    ensures RedeemTimes(f, k, post, crypto).fetcher.publicKey == f.publicKey
    decreases k
  {
    if k > 0 {
      var r := ActRedeem(f, post, crypto);
      if r.outcome.Redeemed? {
        RedeemTimesCounts(r.state, k - 1, post, crypto);
      }
    }
  }

  /** The fetcher's lifecycle: from `new`, a completed issue shows 3 credits
      and the fetched key, and three redeems that all complete bring the
      count to 0. */
  lemma FreshFetcherLifecycle(publicReply: HttpReply, preReq: PreReq,
                              post: Bytes -> HttpReply, crypto: ClientCrypto)
    requires ActIssue(New(), publicReply, preReq, post, crypto).outcome == IssueSucceeded
    ensures var issued := ActIssue(New(), publicReply, preReq, post, crypto).state;
      && issued.credits == 3
      && issued.publicKey == publicReply.body
      && (RedeemTimes(issued, 3, post, crypto).completed == 3 ==>
            RedeemTimes(issued, 3, post, crypto).fetcher.credits == 0)
  {
    var issued := ActIssue(New(), publicReply, preReq, post, crypto).state;
    RedeemTimesCounts(issued, 3, post, crypto);
  }
}

=== FILE: end_to_end.dfy ===
/** The clients wired to the issuer: what the issuer does with the bodies
    each client builds, and what each client makes of the issuer's answers. */
module EndToEnd {
  import opened Wrappers
  import opened Protocol
  import Framing
  import opened NullifierStore
  import Issuer
  import WebClient
  import Agent

  /** The agent and the issuer build the same domain-separation context. */
  lemma ParamsAgree()
    ensures Issuer.GetParams() == Agent.GetParams()
    ensures Issuer.GetParams().date == "2024-01-15"
  {
  }

  /** A message as the bytes of its text (the messages are ASCII). */
  function TextBytes(m: string): (b: Bytes)
    ensures |b| == |m|
  {
    seq(|m|, i requires 0 <= i < |m| => (m[i] as int) % 256)
  }

  /** How a handler outcome reaches a client: a built response keeps its
      status and body; a handler that failed is taken to be answered with
      status 500 and an empty body. The web client completes on neither a
      non-200 status nor a network error. The agent reads no status, so it
      completes on a failed handler's reply whenever the library accepts
      its body (`AgentFinalizesFailedIssuance`). */
  function ToReply(o: Issuer.Outcome): HttpReply
  {
    if o.Aborted? then Reply(500, [])
    else if o.response.FromBytes? then Reply(200, o.response.body)
    else Reply(o.response.status, TextBytes(o.response.message))
  }

  /** The issuer's request route, as a client sees it. */
  function RequestRoute(key: Option<Bytes>, ic: Issuer.IssuerCrypto): Bytes -> HttpReply
  {
    body => ToReply(Issuer.ServeRequest(body, key, ic))
  }

  /** The issuer's spend route over a given store, as a client sees it. */
  function SpendRoute(store: Store, key: Option<Bytes>, ic: Issuer.IssuerCrypto): Bytes -> HttpReply
  {
    body => ToReply(Issuer.ServeSpend(store, body, key, ic).outcome)
  }

  /** Web client against the issuer: the page records a balance exactly when
      the issuer signed that very amount over that very request, and the
      token it keeps is the one finalized from the issuer's answer. */
  lemma WebIssuanceAgreesOnAmount(s: WebClient.MyState, amount: WebClient.Entry, publicKey: Bytes,
                                  preReq: PreReq, key: Option<Bytes>, ic: Issuer.IssuerCrypto, crypto: ClientCrypto)
    requires WebClient.ValidateInput(amount)
    ensures var r := WebClient.RequestCredits(s, amount, WebClient.HttpUrl, Reply(200, publicKey), preReq, RequestRoute(key, ic), crypto);
      r.outcome.Received? <==>
        && key.Some?
        && ic.parseRequest(preReq.issuanceRequest)
        && ic.issue(key.value, Issuer.GetParams(), preReq.issuanceRequest, amount.n).Some?
        && crypto.finalizeCredits(publicKey, preReq,
                                  ic.issue(key.value, Issuer.GetParams(), preReq.issuanceRequest, amount.n).value).Some?
    ensures var r := WebClient.RequestCredits(s, amount, WebClient.HttpUrl, Reply(200, publicKey), preReq, RequestRoute(key, ic), crypto);
      r.outcome.Received? ==>
        && r.state.credits == amount.n
        && r.state.creditToken == crypto.finalizeCredits(publicKey, preReq,
             ic.issue(key.value, Issuer.GetParams(), preReq.issuanceRequest, amount.n).value)
  {
    var body := WebClient.IssuanceBody(amount.n, preReq.issuanceRequest);
    WebClient.AcceptedAmountFitsFrame(amount, preReq.issuanceRequest);
    if key.Some? && ic.parseRequest(preReq.issuanceRequest) {
      Issuer.IssuesLeadingByte(amount.n, preReq.issuanceRequest, key, ic);
    }
    assert RequestRoute(key, ic)(body) == ToReply(Issuer.ServeRequest(body, key, ic));
  }

  /** Agent against the issuer: a completed `act_issue` means the issuer
      signed exactly 3 credits over the agent's request. */
  lemma AgentIssuanceSignsThree(f: Agent.Fetcher, publicKey: Bytes, preReq: PreReq,
                                key: Option<Bytes>, ic: Issuer.IssuerCrypto, crypto: ClientCrypto)
    ensures var r := Agent.ActIssue(f, Reply(200, publicKey), preReq, RequestRoute(key, ic), crypto);
      r.outcome == Agent.IssueSucceeded ==>
        && r.state.credits == 3
        && ((key.Some? && ic.parseRequest(preReq.issuanceRequest)
             && ic.issue(key.value, Issuer.GetParams(), preReq.issuanceRequest, 3).Some?)
            ==> Some(r.state.login) == crypto.finalizeCredits(publicKey, preReq,
                  ic.issue(key.value, Issuer.GetParams(), preReq.issuanceRequest, 3).value))
  {
    Framing.DecodeEncode(Agent.IssueAmount, preReq.issuanceRequest);
    if key.Some? && ic.parseRequest(preReq.issuanceRequest) {
      Issuer.IssuesLeadingByte(Agent.IssueAmount, preReq.issuanceRequest, key, ic);
    }
  }

  /** Agent against an issuer whose key cannot be loaded: the request
      handler fails, yet the agent hands whatever body comes back to
      `finalize_credits`, and records 3 credits whenever that call accepts it. */
  lemma AgentFinalizesFailedIssuance(f: Agent.Fetcher, publicKey: Bytes, preReq: PreReq,
                                     ic: Issuer.IssuerCrypto, crypto: ClientCrypto)
    ensures Issuer.ServeRequest(Framing.Encode(Agent.IssueAmount, preReq.issuanceRequest), None, ic).Aborted?
    ensures var r := Agent.ActIssue(f, Reply(200, publicKey), preReq, RequestRoute(None, ic), crypto);
      && (r.outcome == Agent.IssueSucceeded <==> crypto.finalizeCredits(publicKey, preReq, []).Some?)
      && (r.outcome == Agent.IssueSucceeded ==> r.state.credits == 3)
  {
    var body := Framing.Encode(Agent.IssueAmount, preReq.issuanceRequest);
    assert RequestRoute(None, ic)(body) == ToReply(Issuer.ServeRequest(body, None, ic));
  }

  /** Web client against the intended issuer: a proof whose nullifier is
      already recorded is answered 400 with the double-spend text, and the
      page keeps its balance and token. */
  lemma WebDoubleSpendKeepsState(s: WebClient.MyState, amount: WebClient.Entry, used: set<Nullifier>,
                                 key: Option<Bytes>, ic: Issuer.IssuerCrypto, crypto: ClientCrypto)
    requires WebClient.ValidateInput(amount) && s.creditToken.Some? && s.publicKey.Some?
    requires crypto.spendTokens(amount.n, s.creditToken.value).Some?
    requires var proof := crypto.spendTokens(amount.n, s.creditToken.value).value.spendProof;
      ic.proofNullifier(proof).Some? && ic.proofNullifier(proof).value in used
    ensures var r := WebClient.SpendCredits(s, amount, WebClient.HttpUrl, SpendRoute(Tracking(used), key, ic), crypto);
      && r.state == s
      && r.outcome.Attempted?
      && r.outcome.reply == WebClient.SpendRejected(TextBytes(Issuer.DoubleSpendMessage), s.credits == 0)
  {
    var proof := crypto.spendTokens(amount.n, s.creditToken.value).value.spendProof;
    assert SpendRoute(Tracking(used), key, ic)(proof) == Reply(400, TextBytes(Issuer.DoubleSpendMessage));
  }

  /** Web client against the intended issuer: a completed spend means the
      issuer accepted a fresh nullifier and refunded it, and the page's
      balance fell by the amount asked for. */
  lemma WebSpendConsumesFreshNullifier(s: WebClient.MyState, amount: WebClient.Entry, used: set<Nullifier>,
                                       key: Option<Bytes>, ic: Issuer.IssuerCrypto, crypto: ClientCrypto)
    ensures var r := WebClient.SpendCredits(s, amount, WebClient.HttpUrl, SpendRoute(Tracking(used), key, ic), crypto);
      r.outcome.Attempted? && r.outcome.reply.Spent? ==>
        && s.creditToken.Some?
        && crypto.spendTokens(amount.n, s.creditToken.value).Some?
        && var proof := crypto.spendTokens(amount.n, s.creditToken.value).value.spendProof;
           && ic.proofNullifier(proof).Some?
           && ic.proofNullifier(proof).value !in used
           && key.Some?
           && ic.refund(key.value, Issuer.GetParams(), proof).Ok?
           && r.state.credits == s.credits - amount.n
  {
    var r := WebClient.SpendCredits(s, amount, WebClient.HttpUrl, SpendRoute(Tracking(used), key, ic), crypto);
    if r.outcome.Attempted? && r.outcome.reply.Spent? {
      var proof := crypto.spendTokens(amount.n, s.creditToken.value).value.spendProof;
      var served := Issuer.ServeSpend(Tracking(used), proof, key, ic);
      assert SpendRoute(Tracking(used), key, ic)(proof) == ToReply(served.outcome);
      Issuer.DoubleSpendExactly(Tracking(used), proof, key, ic);
      if ic.proofNullifier(proof).Some? && key.Some? {
        match ic.refund(key.value, Issuer.GetParams(), proof)
        case Ok(_) =>
        case Err(e) =>
      }
    }
  }

  /** Agent against the intended issuer, a replayed proof: the 400 text is
      handed to `update_refund` as if it were a refund, since the agent never
      looks at the status. Only a library that rejects it keeps the agent's
      count from dropping. */
  lemma AgentIgnoresDoubleSpendStatus(f: Agent.Fetcher, used: set<Nullifier>,
                                      key: Option<Bytes>, ic: Issuer.IssuerCrypto, crypto: ClientCrypto)
    requires crypto.spendTokens(Agent.RedeemCharge, f.login).Some?
    requires var pre := crypto.spendTokens(Agent.RedeemCharge, f.login).value;
      ic.proofNullifier(pre.spendProof).Some? && ic.proofNullifier(pre.spendProof).value in used
    ensures var pre := crypto.spendTokens(Agent.RedeemCharge, f.login).value;
      var r := Agent.ActRedeem(f, SpendRoute(Tracking(used), key, ic), crypto);
      r.outcome.Redeemed? <==>
        crypto.updateRefund(pre, TextBytes(Issuer.DoubleSpendMessage), f.publicKey).Some?
  {
    var pre := crypto.spendTokens(Agent.RedeemCharge, f.login).value;
    assert SpendRoute(Tracking(used), key, ic)(pre.spendProof) == Reply(400, TextBytes(Issuer.DoubleSpendMessage));
  }
}

=== FILE: framing.dfy ===
/** The issuance request body: one byte holding the requested credit amount,
    immediately followed by the CBOR of the IssuanceRequest, with no length
    or version tag. */
module Framing {
  import opened Wrappers
  import opened Protocol

  /** A decoded issuance body. */
  datatype IssuanceBody = IssuanceBody(amount: byte, request: Bytes)

  /** The body both clients build before posting to the request route. */
  function Encode(amount: byte, request: Bytes): (body: Bytes)
    ensures |body| == 1 + |request|
    ensures body[0] == amount
    ensures body[1..] == request
  {
    [amount] + request
  }

  /** The issuer's split at offset 1; an empty body has no amount byte. */
  function Decode(body: Bytes): (r: Option<IssuanceBody>)
    ensures r.None? <==> |body| == 0
    ensures r.Some? ==> Encode(r.value.amount, r.value.request) == body
  {
    if |body| == 0 then None else Some(IssuanceBody(body[0], body[1..]))
  }

  /** Decoding undoes encoding, for every amount byte and request. */
  lemma DecodeEncode(amount: byte, request: Bytes)
    ensures Decode(Encode(amount, request)) == Some(IssuanceBody(amount, request))
  {
  }

  /** Two different (amount, request) pairs never share a body. */
  lemma EncodeInjective(a1: byte, r1: Bytes, a2: byte, r2: Bytes)
    requires Encode(a1, r1) == Encode(a2, r2)
    ensures a1 == a2 && r1 == r2
  {
    DecodeEncode(a1, r1);
    DecodeEncode(a2, r2);
  }
}

=== FILE: issuer.dfy ===
/** The issuer worker's three handlers: public-key retrieval, blind issuance
    of the amount named by the request's leading byte, and spend processing
    with its nullifier check, mark and refund. */
module Issuer {
  import opened Wrappers
  import opened Protocol
  import Framing
  import opened NullifierStore

  /** `get_params`: the domain-separation context of this deployment. */
  function GetParams(): Params
  {
    Params("example-org", "payment-api", "production", "2024-01-15")
  }

  /** The issuer-side library calls, as opaque functions over CBOR bytes.
      - publicKey(sk): the encoded public half of the private key;
      - parseRequest(b): whether `IssuanceRequest::from_cbor` accepts `b`;
      - issue(sk, params, request, amount): the encoded IssuanceResponse,
        `None` when `issue` fails;
      - proofNullifier(b): the nullifier of the SpendProof encoded by `b`,
        `None` when `SpendProof::from_cbor` rejects `b`;
      - refund(sk, params, proof): the encoded Refund, or the library's
        error rendered as text. */
  datatype IssuerCrypto = IssuerCrypto(
    publicKey: Bytes -> Bytes,
    parseRequest: Bytes -> bool,
    issue: (Bytes, Params, Bytes, nat) -> Option<Bytes>,
    proofNullifier: Bytes -> Option<Nullifier>,
    refund: (Bytes, Params, Bytes) -> Result<Bytes, string>)

  /** A response the handler builds: `Response::from_bytes` (status 200) or
      `Response::error`. */
  datatype Response = FromBytes(body: Bytes) | Error(message: string, status: int)

  /** Why a handler produced no response of its own: the private key could
      not be loaded (an `Err` propagated by `?`), or an `unwrap` or an index
      panicked. */
  datatype Fault = KeyUnavailable | EmptyBody | MalformedRequest | IssueFailed | MalformedProof

  datatype Outcome = Served(response: Response) | Aborted(fault: Fault)

  const DoubleSpendMessage: string := "err: Double-spending attempt detected"
  const RefundFailedPrefix: string := "err: not enough credits available to spend: "

  /** The 400 answer to a nullifier that is already recorded. */
  function DoubleSpendResponse(): Outcome
  {
    Served(Error(DoubleSpendMessage, 400))
  }

  /** A successful refund: status 200 carrying the encoded Refund. */
  predicate Refunded(o: Outcome)
  {
    o.Served? && o.response.FromBytes?
  }

  /** `serve_public_key`: the encoded public key, if the private key loads. */
  function ServePublicKey(key: Option<Bytes>, c: IssuerCrypto): (o: Outcome)
    ensures o.Served? <==> key.Some?
    ensures key.Some? ==> o.response == FromBytes(c.publicKey(key.value))
    ensures key.None? ==> o.fault == KeyUnavailable
  {
    match key
    case None => Aborted(KeyUnavailable)
    case Some(sk) => Served(FromBytes(c.publicKey(sk)))
  }

  /** `serve_request`: split the body at offset 1 and issue the leading byte
      as the amount. No bound beyond the byte's own range is applied. */
  function ServeRequest(body: Bytes, key: Option<Bytes>, c: IssuerCrypto): (o: Outcome)
    ensures |body| == 0 ==> o == Aborted(EmptyBody)
    ensures o.Served? <==>
      && |body| >= 1
      && c.parseRequest(body[1..])
      && key.Some?
      && c.issue(key.value, GetParams(), body[1..], body[0]).Some?
    ensures o.Served? ==>
      o.response == FromBytes(c.issue(key.value, GetParams(), body[1..], body[0]).value)
  {
    match Framing.Decode(body)
    case None => Aborted(EmptyBody)
    case Some(framed) =>
      if !c.parseRequest(framed.request) then Aborted(MalformedRequest)
      else if key.None? then Aborted(KeyUnavailable)
      else
        match c.issue(key.value, GetParams(), framed.request, framed.amount)
        case None => Aborted(IssueFailed)
        case Some(response) => Served(FromBytes(response))
  }

  /** Every amount byte, 0 and 255 included, reaches `issue` unchanged: the
      issued amount is exactly the byte the client put first. */
  lemma IssuesLeadingByte(amount: byte, request: Bytes, key: Option<Bytes>, c: IssuerCrypto)
    requires c.parseRequest(request) && key.Some?
    ensures ServeRequest(Framing.Encode(amount, request), key, c) ==
      match c.issue(key.value, GetParams(), request, amount)
      case None => Aborted(IssueFailed)
      case Some(response) => Served(FromBytes(response))
  {
    Framing.DecodeEncode(amount, request);
  }

  /** The response a refund call turns into: the encoded refund on success,
      otherwise a 400 whose text starts with the "not enough credits" prefix
      and can never be mistaken for the double-spend answer. */
  function RefundReply(refund: Result<Bytes, string>): (o: Outcome)
    ensures Refunded(o) <==> refund.Ok?
    ensures refund.Ok? ==> o.response.body == refund.value
    ensures refund.Err? ==>
      && o.Served? && o.response.Error? && o.response.status == 400
      && RefundFailedPrefix <= o.response.message
      && o != DoubleSpendResponse()
  {
    match refund
    case Ok(encoded) => Served(FromBytes(encoded))
    case Err(e) =>
      var message := RefundFailedPrefix + e;
      assert message[5] == 'n' != DoubleSpendMessage[5];
      Served(Error(message, 400))
  }

  /** The outcome of one spend request and the store afterwards. */
  datatype SpendResult = SpendResult(outcome: Outcome, store: Store)

  /** `serve_spend` against a given store: parse the proof, reject a used
      nullifier, mark it, load the key, then refund. */
  function ServeSpend(store: Store, body: Bytes, key: Option<Bytes>, c: IssuerCrypto): (r: SpendResult)
    ensures c.proofNullifier(body).None? ==> r == SpendResult(Aborted(MalformedProof), store)
    ensures c.proofNullifier(body).Some? && IsUsed(store, c.proofNullifier(body).value) ==>
      r == SpendResult(DoubleSpendResponse(), store)
    ensures c.proofNullifier(body).Some? && !IsUsed(store, c.proofNullifier(body).value) ==>
      && r.store == MarkUsed(store, c.proofNullifier(body).value)
      && (key.None? ==> r.outcome == Aborted(KeyUnavailable))
      && (key.Some? ==> r.outcome == RefundReply(c.refund(key.value, GetParams(), body)))
  {
    match c.proofNullifier(body)
    case None => SpendResult(Aborted(MalformedProof), store)
    case Some(nullifier) =>
      if IsUsed(store, nullifier) then SpendResult(DoubleSpendResponse(), store)
      else
        var marked := MarkUsed(store, nullifier);
        match key
        case None => SpendResult(Aborted(KeyUnavailable), marked)
        case Some(sk) => SpendResult(RefundReply(c.refund(sk, GetParams(), body)), marked)
  }

  /** The double-spend answer is given exactly when the proof parses and its
      nullifier is already recorded. */
  lemma DoubleSpendExactly(store: Store, body: Bytes, key: Option<Bytes>, c: IssuerCrypto)
    ensures ServeSpend(store, body, key, c).outcome == DoubleSpendResponse() <==>
      c.proofNullifier(body).Some? && IsUsed(store, c.proofNullifier(body).value)
  {
    var r := ServeSpend(store, body, key, c);
    if c.proofNullifier(body).Some? && !IsUsed(store, c.proofNullifier(body).value) && key.Some? {
      match c.refund(key.value, GetParams(), body)
      case Ok(_) =>
      case Err(e) =>
        assert r.outcome.response.message[5] == 'n' != DoubleSpendMessage[5];
    }
  }

  /** When the nullifier is already recorded, neither the key nor the refund
      call has any influence: the answer is the same whatever they are. */
  lemma DoubleSpendIgnoresRefund(store: Store, body: Bytes, key: Option<Bytes>, key': Option<Bytes>,
                                 c: IssuerCrypto, refund': (Bytes, Params, Bytes) -> Result<Bytes, string>)
    requires c.proofNullifier(body).Some? && IsUsed(store, c.proofNullifier(body).value)
    ensures ServeSpend(store, body, key', c.(refund := refund')) == ServeSpend(store, body, key, c)
  {
  }

  /** A parsed proof's nullifier is recorded whether the refund succeeds,
      fails, or the key cannot be loaded: the mark precedes all of them. */
  lemma MarkedWhateverRefundDoes(used: set<Nullifier>, body: Bytes, key: Option<Bytes>, c: IssuerCrypto)
    requires c.proofNullifier(body).Some?
    ensures ServeSpend(Tracking(used), body, key, c).store == Tracking(used + {c.proofNullifier(body).value})
  {
  }

  /** Intended store: submitting the same proof bytes a second time is
      answered as a double spend, whatever the first attempt returned and
      whatever key or refund behaviour the second attempt meets. */
  lemma ReplayRejected(used: set<Nullifier>, body: Bytes, key1: Option<Bytes>, key2: Option<Bytes>, c: IssuerCrypto)
    requires c.proofNullifier(body).Some?
    ensures var first := ServeSpend(Tracking(used), body, key1, c);
            ServeSpend(first.store, body, key2, c) == SpendResult(DoubleSpendResponse(), first.store)
  {
  }

  /** With the stub, the double-spend branch is dead code: no store state and
      no proof ever yields it, and the stub stays a stub. */
  lemma StubNeverRejects(body: Bytes, key: Option<Bytes>, c: IssuerCrypto)
    ensures ServeSpend(Stub, body, key, c).outcome != DoubleSpendResponse()
    ensures ServeSpend(Stub, body, key, c).store == Stub
  {
    DoubleSpendExactly(Stub, body, key, c);
  }

  /** `serve_spend` as shipped: a fresh stub store for every request. */
  function ShippedServeSpend(body: Bytes, key: Option<Bytes>, c: IssuerCrypto): (o: Outcome)
    ensures o != DoubleSpendResponse()
    ensures c.proofNullifier(body).Some? && key.Some? ==>
      o == RefundReply(c.refund(key.value, GetParams(), body))
  {
    StubNeverRejects(body, key, c);
    ServeSpend(Stub, body, key, c).outcome
  }

  /** The outcomes of a sequence of spend requests against one store, and
      the store afterwards. */
  datatype Batch = Batch(outcomes: seq<Outcome>, store: Store)

  /** Serve spend requests one after another, threading the store. */
  function ServeAll(store: Store, bodies: seq<Bytes>, key: Option<Bytes>, c: IssuerCrypto): (b: Batch)
    ensures |b.outcomes| == |bodies|
    ensures b.store.Tracking? <==> store.Tracking?
    ensures store.Tracking? ==> store.used <= b.store.used
    decreases |bodies|
  {
    if |bodies| == 0 then Batch([], store)
    else
      var first := ServeSpend(store, bodies[0], key, c);
      var rest := ServeAll(first.store, bodies[1..], key, c);
      Batch([first.outcome] + rest.outcomes, rest.store)
  }

  /** Intended store, any sequence of requests: a refunded proof's nullifier
      was not in the store beforehand and is in it afterwards, and no two
      refunded requests carry the same nullifier. */
  lemma {:induction false} RefundAtMostOnce(store: Store, bodies: seq<Bytes>, key: Option<Bytes>, c: IssuerCrypto)
    requires store.Tracking?
    ensures var b := ServeAll(store, bodies, key, c);
      forall j :: 0 <= j < |bodies| && Refunded(b.outcomes[j]) ==>
        && c.proofNullifier(bodies[j]).Some?
        && c.proofNullifier(bodies[j]).value !in store.used
        && c.proofNullifier(bodies[j]).value in b.store.used
    ensures var b := ServeAll(store, bodies, key, c);
      forall i, j :: 0 <= i < j < |bodies| && Refunded(b.outcomes[i]) && Refunded(b.outcomes[j]) ==>
        c.proofNullifier(bodies[i]) != c.proofNullifier(bodies[j])
    decreases |bodies|
  {
    if |bodies| > 0 {
      var b := ServeAll(store, bodies, key, c);
      var first := ServeSpend(store, bodies[0], key, c);
      var rest := ServeAll(first.store, bodies[1..], key, c);
      assert b.outcomes == [first.outcome] + rest.outcomes;
      RefundAtMostOnce(first.store, bodies[1..], key, c);
      forall j | 0 <= j < |bodies| && Refunded(b.outcomes[j])
        ensures c.proofNullifier(bodies[j]).Some?
        ensures c.proofNullifier(bodies[j]).value !in store.used
        ensures c.proofNullifier(bodies[j]).value in b.store.used
      {
        if j == 0 {
          DoubleSpendExactly(store, bodies[0], key, c);
        } else {
          assert b.outcomes[j] == rest.outcomes[j - 1];
          assert bodies[j] == bodies[1..][j - 1];
        }
      }
      forall i, j | 0 <= i < j < |bodies| && Refunded(b.outcomes[i]) && Refunded(b.outcomes[j])
        ensures c.proofNullifier(bodies[i]) != c.proofNullifier(bodies[j])
      {
        assert b.outcomes[j] == rest.outcomes[j - 1];
        assert bodies[j] == bodies[1..][j - 1];
        if i > 0 {
          assert b.outcomes[i] == rest.outcomes[i - 1];
          assert bodies[i] == bodies[1..][i - 1];
        } else {
          DoubleSpendExactly(store, bodies[0], key, c);
        }
      }
    }
  }

  /** The same fresh proof submitted twice, one request after the other:
      the first is refunded and the second is a double spend. */
  lemma ResubmittedProofRefundedOnce(used: set<Nullifier>, body: Bytes, sk: Bytes, c: IssuerCrypto)
    requires c.proofNullifier(body).Some? && c.proofNullifier(body).value !in used
    requires c.refund(sk, GetParams(), body).Ok?
    ensures ServeAll(Tracking(used), [body, body], Some(sk), c).outcomes ==
      [Served(FromBytes(c.refund(sk, GetParams(), body).value)), DoubleSpendResponse()]
  {
    var first := ServeSpend(Tracking(used), body, Some(sk), c);
    assert [body, body][1..] == [body];
    assert ServeAll(first.store, [body], Some(sk), c).outcomes == [ServeSpend(first.store, body, Some(sk), c).outcome];
  }

  /** Shipped store: the same proof bytes are refunded on every replay. The
      refund bytes themselves may differ from one replay to the next, since
      `refund` draws fresh randomness; each reply is a refund all the same. */
  lemma {:induction false} ShippedRefundsEveryReplay(body: Bytes, sk: Bytes, c: IssuerCrypto, times: nat)
    requires c.proofNullifier(body).Some?
    requires c.refund(sk, GetParams(), body).Ok?
    ensures var replays := seq(times, _ => body);
      forall k :: 0 <= k < times ==>
        Refunded(ServeAll(Stub, replays, Some(sk), c).outcomes[k])
    decreases times
  {
    if times > 0 {
      var replays := seq(times, _ => body);
      var shorter := seq(times - 1, _ => body);
      assert replays[1..] == shorter;
      ShippedRefundsEveryReplay(body, sk, c, times - 1);
      var b := ServeAll(Stub, replays, Some(sk), c);
      var first := ServeSpend(Stub, body, Some(sk), c);
      assert first.store == Stub;
      forall k | 0 <= k < times
        ensures Refunded(b.outcomes[k])
      {
        if k > 0 {
          assert b.outcomes[k] == ServeAll(Stub, shorter, Some(sk), c).outcomes[k - 1];
        }
      }
    }
  }
}

=== FILE: nullifier_store.dfy ===
/** The issuer's record of spent nullifiers, in two versions: the intended
    set of used markers, and the stub the issuer ships, which remembers
    nothing. */
module NullifierStore {

  /** A nullifier is a curve scalar; the model only compares them. */
  type Nullifier = nat

  datatype Store =
    | Tracking(used: set<Nullifier>)  // intended: `is_used` is membership, `mark_used` insertion
    | Stub                             // shipped: `is_used` is false, `mark_used` does nothing

  /** `is_used`. */
  predicate IsUsed(s: Store, n: Nullifier)
  {
    match s
    case Tracking(used) => n in used
    case Stub => false
  }

  /** `mark_used`. A tracking store afterwards answers `n` as used and
      answers every other nullifier as before; the stub stays the stub. */
  function MarkUsed(s: Store, n: Nullifier): (s': Store)
    ensures s'.Tracking? <==> s.Tracking?
    ensures s.Tracking? ==> IsUsed(s', n)
    ensures s.Stub? ==> !IsUsed(s', n)
    ensures forall m :: m != n ==> (IsUsed(s', m) <==> IsUsed(s, m))
  {
    match s
    case Tracking(used) => Tracking(used + {n})
    case Stub => Stub
  }

  /** Marking only ever adds: whatever was used stays used. */
  lemma MarkUsedMonotone(s: Store, n: Nullifier, m: Nullifier)
    requires IsUsed(s, m)
    ensures IsUsed(MarkUsed(s, n), m)
  {
  }

  /** The stub never reports a nullifier as used, however often it is marked. */
  lemma StubForgets(n: Nullifier, m: Nullifier)
    ensures !IsUsed(MarkUsed(Stub, n), m)
  {
  }
}

=== FILE: protocol.dfy ===
/** Vocabulary shared by the issuer and both clients: byte bodies, the
    domain-separation parameters, the three HTTP endpoints and the client-side
    calls into the anonymous-credit-token library. */
module Protocol {
  import opened Wrappers

  /** One octet of a message body. */
  type byte = b: int | 0 <= b < 256

  /** A message body. Every protocol object (key, request, response, token,
      proof, refund) is represented by its CBOR encoding. */
  type Bytes = seq<byte>

  /** Domain-separation context: organization, service, environment and
      batch date. Both sides must construct the same value. */
  datatype Params = Params(organization: string, service: string, environment: string, date: string)

  /** The issuer's three routes. */
  const PublicPath: string := "/public"
  const RequestPath: string := "/request"
  const SpendPath: string := "/spend"

  /** A request a client puts on the wire. */
  datatype HttpRequest = Get(path: string) | Post(path: string, body: Bytes)

  /** What a client gets back: a status and a body, or a transport failure
      (a rejected `fetch` promise, a failed reqwest `send`). */
  datatype HttpReply = Reply(status: int, body: Bytes) | NetworkError

  /** One handler run: the state afterwards, what the handler reports, and
      the requests it sent, in order. */
  datatype Step<S, O> = Step(state: S, outcome: O, sent: seq<HttpRequest>)

  /** What `request_credits` returns: a fresh PreIssuance and its
      IssuanceRequest. The randomness that creates them is this value. */
  datatype PreReq = PreReq(preissuance: Bytes, issuanceRequest: Bytes)

  /** What `spend_tokens` returns: a SpendProof and its PreRefund. */
  datatype PreSpend = PreSpend(spendProof: Bytes, prerefund: Bytes)

  /** The client-side library calls, as opaque functions. `None` stands for
      a decoding or verification failure, which the source turns into a
      panic through `unwrap`.
      - finalizeCredits(publicKey, preReq, issuanceResponse): the credit token;
      - spendTokens(charge, creditToken): proof and pre-refund for `charge`;
      - updateRefund(preSpend, refund, publicKey): the refreshed credit token. */
  datatype ClientCrypto = ClientCrypto(
    finalizeCredits: (Bytes, PreReq, Bytes) -> Option<Bytes>,
    spendTokens: (byte, Bytes) -> Option<PreSpend>,
    updateRefund: (PreSpend, Bytes, Bytes) -> Option<Bytes>)
}

=== FILE: web_client.dfy ===
/** The browser client: a session record kept between clicks, and the three
    handlers that change it (request credits, spend credits, restart). */
module WebClient {
  import opened Wrappers
  import opened Protocol
  import Framing

  /** `MyState`: the balance the page believes it holds, the issuer's
      encoded public key and the current encoded credit token. */
  datatype MyState = MyState(credits: int, publicKey: Option<Bytes>, creditToken: Option<Bytes>)

  /** `new MyState()`. */
  function Initial(): MyState
  {
    MyState(0, None, None)
  }

  /** An amount text field: empty after trimming, a number with an integral
      value, or anything else (not a number, or a fraction). */
  datatype Entry = Blank | Integer(n: int) | NotInteger

  /** `validateInput`: an integer strictly between 0 and 256. */
  predicate ValidateInput(e: Entry)
  {
    e.Integer? && 0 < e.n < 256
  }

  /** The issuer-URL text field, through the two ways the page reads it.
      `accepted`: `validateUrl` passes on the trimmed field, or on the
      default issuer when the field is blank. `resolves`: `url`, which
      resolves a route against the raw field, does not throw. */
  datatype UrlField = UrlField(accepted: bool, resolves: bool)

  /** A blank field is accepted through the default issuer, yet `url` still
      resolves against the blank text and throws. */
  const BlankUrl := UrlField(true, false)

  /** An absolute http or https address typed into the field. */
  const HttpUrl := UrlField(true, true)

  /** Why a handler stopped before contacting the issuer, or after the
      public-key fetch was answered with a non-200 status. */
  datatype Refusal = MissingAmount | InvalidAmount | InvalidUrl | NoIssuerKey | NoCreditToken | NoPublicKey

  /** What the request handler reports. */
  datatype RequestOutcome =
    | RequestRefused(why: Refusal)
    | Received(amount: int)        // status 200 and the token finalized
    | IssuerRejected               // status 400
    | Unanswered(status: int)      // any other status: no message, no change
    | RequestFailed                // an exception, caught by the handler

  /** What the spend handler reports once it got past its checks. */
  datatype SpendReply =
    | Spent(amount: int)                            // status 200 and the refund applied
    | SpendRejected(text: Bytes, suggestTopUp: bool) // status 400, with the server's text
    | IssuerError(status: int)                      // any other status
    | SpendFailed                                   // an exception escaping the handler

  datatype SpendOutcome =
    | SpendRefused(why: Refusal)
    | Attempted(warned: bool, reply: SpendReply)   // warned: more than the balance was asked for

  /** The body posted to the request route. Storing a number into a
      `Uint8Array` keeps it modulo 256. */
  function IssuanceBody(credits: int, request: Bytes): Bytes
  {
    Framing.Encode(credits % 256, request)
  }

  /** Every amount `validateInput` accepts survives the one-byte framing:
      the issuer reads back exactly the amount the page will record, and
      exactly the request the library produced. */
  lemma AcceptedAmountFitsFrame(e: Entry, request: Bytes)
    requires ValidateInput(e)
    ensures Framing.Decode(IssuanceBody(e.n, request)) == Some(Framing.IssuanceBody(e.n, request))
  {
    Framing.DecodeEncode(e.n, request);
  }

  /** For any number the page might frame, the issuer reads back that number
      modulo 256, which is the number itself exactly when it lies in 0..255.
      `validateInput` is what keeps every other amount off the wire. */
  lemma FramedAmount(n: int, request: Bytes)
    ensures Framing.Decode(IssuanceBody(n, request)).Some?
    ensures Framing.Decode(IssuanceBody(n, request)).value.amount == n % 256
    ensures Framing.Decode(IssuanceBody(n, request)).value.request == request
    ensures Framing.Decode(IssuanceBody(n, request)).value.amount == n <==> 0 <= n < 256
  {
    Framing.DecodeEncode(n % 256, request);
  }

  /** The request handler gets past its checks and reaches the network. */
  predicate RequestProceeds(amount: Entry, url: UrlField)
  {
    ValidateInput(amount) && url.accepted && url.resolves
  }

  /** `handleRequestCredits`. The public key is stored as soon as it is
      fetched, before the issuance request is sent. Balance and token change
      only after a 200 reply whose response finalizes, and then the balance
      is overwritten with the requested amount. */
  function RequestCredits(s: MyState, amount: Entry, url: UrlField, publicReply: HttpReply,
                          preReq: PreReq, post: Bytes -> HttpReply, crypto: ClientCrypto): (r: Step<MyState, RequestOutcome>)
    ensures !ValidateInput(amount) || !url.accepted ==> r.state == s && r.sent == [] && r.outcome.RequestRefused?
    ensures ValidateInput(amount) && url.accepted && !url.resolves ==> r == Step(s, RequestFailed, [])
    ensures RequestProceeds(amount, url) && !(publicReply.Reply? && publicReply.status == 200) ==>
      && r.state == s
      && r.sent == [Get(PublicPath)]
      && r.outcome == (if publicReply.Reply? then RequestRefused(NoIssuerKey) else RequestFailed)
    ensures RequestProceeds(amount, url) && publicReply.Reply? && publicReply.status == 200 ==>
      && r.state.publicKey == Some(publicReply.body)
      && r.sent == [Get(PublicPath), Post(RequestPath, IssuanceBody(amount.n, preReq.issuanceRequest))]
    ensures r.outcome.Received? <==>
      && RequestProceeds(amount, url)
      && publicReply.Reply? && publicReply.status == 200
      && post(IssuanceBody(amount.n, preReq.issuanceRequest)).Reply?
      && post(IssuanceBody(amount.n, preReq.issuanceRequest)).status == 200
      && crypto.finalizeCredits(publicReply.body, preReq, post(IssuanceBody(amount.n, preReq.issuanceRequest)).body).Some?
    ensures r.outcome.Received? ==>
      && r.outcome.amount == amount.n
      && r.state == MyState(amount.n, Some(publicReply.body),
                            crypto.finalizeCredits(publicReply.body, preReq,
                                                   post(IssuanceBody(amount.n, preReq.issuanceRequest)).body))
    ensures RequestProceeds(amount, url) && publicReply.Reply? && publicReply.status == 200 ==>
      var answer := post(IssuanceBody(amount.n, preReq.issuanceRequest));
      && (answer.NetworkError? ==> r.outcome == RequestFailed)
      && (answer.Reply? && answer.status == 400 ==> r.outcome == IssuerRejected)
      && (answer.Reply? && answer.status != 200 && answer.status != 400 ==> r.outcome == Unanswered(answer.status))
    ensures !r.outcome.Received? ==> r.state.credits == s.credits && r.state.creditToken == s.creditToken
    ensures r.state.publicKey != s.publicKey ==> publicReply.Reply? && publicReply.status == 200
  {
    if amount.Blank? then Step(s, RequestRefused(MissingAmount), [])
    else if !ValidateInput(amount) then Step(s, RequestRefused(InvalidAmount), [])
    else if !url.accepted then Step(s, RequestRefused(InvalidUrl), [])
    else if !url.resolves then Step(s, RequestFailed, [])
    else
      var fetched := [Get(PublicPath)];
      match publicReply
      case NetworkError => Step(s, RequestFailed, fetched)
      case Reply(status, publicKey) =>
        if status != 200 then Step(s, RequestRefused(NoIssuerKey), fetched)
        else
          var withKey := s.(publicKey := Some(publicKey));
          var credits := amount.n;
          var body := IssuanceBody(credits, preReq.issuanceRequest);
          var sent := fetched + [Post(RequestPath, body)];
          match post(body)
          case NetworkError => Step(withKey, RequestFailed, sent)
          case Reply(status, response) =>
            if status == 200 then
              match crypto.finalizeCredits(publicKey, preReq, response)
              case None => Step(withKey, RequestFailed, sent)
              case Some(token) => Step(withKey.(credits := credits, creditToken := Some(token)), Received(credits), sent)
            else if status == 400 then Step(withKey, IssuerRejected, sent)
            else Step(withKey, Unanswered(status), sent)
  }

  /** A blank URL field passes validation through the default issuer, but
      the request still fails before anything is sent, because `url`
      resolves against the blank field rather than the default. */
  lemma BlankUrlReachesNoIssuer(s: MyState, amount: Entry, publicReply: HttpReply,
                                preReq: PreReq, post: Bytes -> HttpReply, crypto: ClientCrypto)
    requires ValidateInput(amount)
    ensures BlankUrl.accepted
    ensures RequestCredits(s, amount, BlankUrl, publicReply, preReq, post, crypto) == Step(s, RequestFailed, [])
  {
  }

  /** What the request handler puts on the wire once its checks pass: the
      key fetch, then (if the key arrived) the framed amount and request. */
  lemma RequestCreditsSends(s: MyState, amount: Entry, publicKey: Bytes,
                            preReq: PreReq, post: Bytes -> HttpReply, crypto: ClientCrypto)
    requires ValidateInput(amount)
    ensures RequestCredits(s, amount, HttpUrl, Reply(200, publicKey), preReq, post, crypto).sent ==
      [Get(PublicPath), Post(RequestPath, Framing.Encode(amount.n, preReq.issuanceRequest))]
  {
  }

  /** Issuing twice keeps only the second amount: the balance is replaced,
      never added to. */
  lemma IssueOverwrites(s: MyState, a1: Entry, a2: Entry, pk: Bytes, p1: PreReq, p2: PreReq,
                        post: Bytes -> HttpReply, crypto: ClientCrypto)
    requires RequestCredits(s, a1, HttpUrl, Reply(200, pk), p1, post, crypto).outcome.Received?
    requires RequestCredits(RequestCredits(s, a1, HttpUrl, Reply(200, pk), p1, post, crypto).state,
                            a2, HttpUrl, Reply(200, pk), p2, post, crypto).outcome.Received?
    ensures RequestCredits(RequestCredits(s, a1, HttpUrl, Reply(200, pk), p1, post, crypto).state,
                           a2, HttpUrl, Reply(200, pk), p2, post, crypto).state.credits == a2.n
  {
  }

  /** The spend handler gets past its checks: a valid amount, a token and a key. */
  predicate SpendReady(s: MyState, amount: Entry)
  {
    ValidateInput(amount) && s.creditToken.Some? && s.publicKey.Some?
  }

  /** `handleSpendCredits`. A spend above the balance is only flagged and is
      sent all the same. Balance and token change only after a 200 reply
      whose refund is accepted by `update_refund`. The address is resolved
      only after `spend_tokens`, and nothing catches a failure of either. */
  function SpendCredits(s: MyState, amount: Entry, url: UrlField, post: Bytes -> HttpReply,
                        crypto: ClientCrypto): (r: Step<MyState, SpendOutcome>)
    ensures !SpendReady(s, amount) ==> r.state == s && r.sent == [] && r.outcome.SpendRefused?
    ensures r.outcome.Attempted? ==> r.outcome.warned == (amount.n > s.credits)
    ensures SpendReady(s, amount) && (crypto.spendTokens(amount.n, s.creditToken.value).None? || !url.resolves) ==>
      r == Step(s, Attempted(amount.n > s.credits, SpendFailed), [])
    ensures SpendReady(s, amount) && crypto.spendTokens(amount.n, s.creditToken.value).Some? && url.resolves ==>
      var pre := crypto.spendTokens(amount.n, s.creditToken.value).value;
      var answer := post(pre.spendProof);
      && r.sent == [Post(SpendPath, pre.spendProof)]
      && r.outcome.Attempted?
      && (answer.NetworkError? ==> r.outcome.reply == SpendFailed)
      && (answer.Reply? && answer.status == 400 ==> r.outcome.reply == SpendRejected(answer.body, s.credits == 0))
      && (answer.Reply? && answer.status != 200 && answer.status != 400 ==> r.outcome.reply == IssuerError(answer.status))
    ensures r.outcome.Attempted? && r.outcome.reply.Spent? <==>
      && SpendReady(s, amount)
      && crypto.spendTokens(amount.n, s.creditToken.value).Some?
      && url.resolves
      && var pre := crypto.spendTokens(amount.n, s.creditToken.value).value;
         && post(pre.spendProof).Reply? && post(pre.spendProof).status == 200
         && crypto.updateRefund(pre, post(pre.spendProof).body, s.publicKey.value).Some?
    ensures r.outcome.Attempted? && r.outcome.reply.Spent? ==>
      && r.outcome.reply.amount == amount.n
      && r.state.credits == s.credits - amount.n
      && r.state.publicKey == s.publicKey
      && r.state.creditToken == crypto.updateRefund(crypto.spendTokens(amount.n, s.creditToken.value).value,
                                                    post(r.sent[0].body).body, s.publicKey.value)
    ensures !(r.outcome.Attempted? && r.outcome.reply.Spent?) ==> r.state == s
  {
    if amount.Blank? then Step(s, SpendRefused(MissingAmount), [])
    else if !ValidateInput(amount) then Step(s, SpendRefused(InvalidAmount), [])
    else if s.creditToken.None? then Step(s, SpendRefused(NoCreditToken), [])
    else if s.publicKey.None? then Step(s, SpendRefused(NoPublicKey), [])
    else
      var spendCredits := amount.n;
      var warned := spendCredits > s.credits;
      match crypto.spendTokens(spendCredits, s.creditToken.value)
      case None => Step(s, Attempted(warned, SpendFailed), [])
      case Some(preSpend) =>
        if !url.resolves then Step(s, Attempted(warned, SpendFailed), [])
        else
          var sent := [Post(SpendPath, preSpend.spendProof)];
          match post(preSpend.spendProof)
          case NetworkError => Step(s, Attempted(warned, SpendFailed), sent)
          case Reply(status, reply) =>
            if status == 200 then
              match crypto.updateRefund(preSpend, reply, s.publicKey.value)
              case None => Step(s, Attempted(warned, SpendFailed), sent)
              case Some(token) =>
                Step(s.(creditToken := Some(token), credits := s.credits - spendCredits),
                     Attempted(warned, Spent(spendCredits)), sent)
            else if status == 400 then Step(s, Attempted(warned, SpendRejected(reply, s.credits == 0)), sent)
            else Step(s, Attempted(warned, IssuerError(status)), sent)
  }

  /** Asking for more than the balance is not blocked: the proof is sent,
      and a 200 answer drives the recorded balance below zero. */
  lemma OverspendStillSent(s: MyState, amount: Entry, post: Bytes -> HttpReply, crypto: ClientCrypto)
    requires SpendReady(s, amount)
    requires amount.n > s.credits >= 0
    requires crypto.spendTokens(amount.n, s.creditToken.value).Some?
    ensures var r := SpendCredits(s, amount, HttpUrl, post, crypto);
      && r.outcome == Attempted(true, r.outcome.reply)
      && r.sent == [Post(SpendPath, crypto.spendTokens(amount.n, s.creditToken.value).value.spendProof)]
      && (r.outcome.reply.Spent? ==> r.state.credits < 0)
  {
  }

  /** `handleRestart`: a fresh session. */
  function Restart(s: MyState): MyState
  {
    Initial()
  }

  /** After a restart nothing can be spent until credits are requested
      again, and the page shows a zero balance. */
  lemma RestartForgetsSession(s: MyState, amount: Entry, url: UrlField, post: Bytes -> HttpReply, crypto: ClientCrypto)
    requires ValidateInput(amount)
    ensures Restart(s).credits == 0
    ensures SpendCredits(Restart(s), amount, url, post, crypto) == Step(Initial(), SpendRefused(NoCreditToken), [])
  {
  }
}

=== FILE: wrappers.dfy ===
/** Failure-carrying wrappers used where the source returns an `Option`,
    a `Result`, or panics in `unwrap`. */
module Wrappers {

  /** A value that may be missing; `None` also stands for a call whose
      `unwrap` would panic. */
  datatype Option<+T> = None | Some(value: T)

  /** A value or the error that replaced it. */
  datatype Result<+T, +E> = Ok(value: T) | Err(error: E)
}
